=== FILE: README.md ===
# immutable_record, modelled in Dafny

`immutable_record` is a small Ruby library for value-object record classes.
`ImmutableRecord.new(:foo, :bar)` generates a class. The class builds frozen
instances from a hash of options, with checks:

- a missing attribute is an error;
- an unknown option key is an error.

Each instance gets:

- one reader per attribute;
- `clone`, which takes overrides and an optional block;
- structural `==`;
- a `hash` and `eql?` pair, so records can serve as hash keys;
- `to_s` and `inspect`, which render as `Item[{:foo=>1, :bar=>2}]`.

The model follows `lib/immutable_record.rb` in six modules:

- `Wrappers`: `Option` and `Result`.
- `Keys`: a hash key or attribute name: a Symbol, a String, `nil` or `false`. Also Ruby's truthiness, `Array#any?` and `Array#-` on key lists (`Minus`).
- `Assoc`: a Ruby `Hash` as an insertion-ordered association list. It covers:
  - `Lookup`;
  - `Store` (`[]=`);
  - `Merge` (`Hash#merge`, a fold of `Store`);
  - `FromPairs` (`Hash[pairs]`);
  - `Zip` (`Array#zip`).
- `Render`: `inspect` for integers, keys, key arrays and hashes from keys to integers. It uses the `{:foo=>1}` format.
- `ImmutableRecord`: the library proper.
  - A generated class is a `Shape`: a fresh identity, the constant's name and `ATTRIBUTES`.
  - An instance is a `Value`: its shape and `__values__`.
  - `ImmutableRecord.new` becomes `Define`, which draws the identity from a `Registry`.
  - `Value#initialize` becomes `New`. `NewAsWritten` is the same code with its `any?` tests kept literally (see Findings). The model also covers `.[]`, the readers, `__attributes__`, `clone`, `==`, `hash`/`eql?`, `to_s`/`inspect` and the error messages.
- `Scenarios`: the examples of `spec/immutable_record_spec.rb`. They use integer values where the tests use strings.

A raised `ArgumentError` is an `Err` result. Its message comes from `Message`.

Attribute names may repeat. The library does not refuse them, and the model does not either. Repeats behave as in Ruby:

- `Array#-` removes every copy;
- `Hash[...]` keeps one entry per key;
- every occurrence of a repeated name is bound to the one option stored under it.

The ghost predicate `WellFormed` holds for every record `New` builds. It says two things: there is one value per attribute, and repeated names carry a single value.

## Model

| member | source | states |
|---|---|---|
| Keys.AnyTruthy | lib/immutable_record.rb:18-23 | `any?` without a block is false exactly when every element is `nil` or `false`, the empty list included (stated by `NoneTruthy`). |
| Keys.NoneTruthy | lib/immutable_record.rb:18-23 | A key list has no truthy element exactly when each of its elements is `nil` or `false`; so `[nil].any?` and `[false].any?` are false although the lists are not empty. |
| Keys.Minus | lib/immutable_record.rb:17 | `Array#-` keeps exactly the elements of the left list that are absent from the right. It never grows the list, and it keeps a list without repeats free of repeats. |
| Keys.MinusAppend | lib/immutable_record.rb:22 | `Array#-` works element by element in order: subtracting from a concatenation concatenates the two differences. |
| Keys.MinusMinus | lib/immutable_record.rb:22 | Subtracting two lists in turn is the same as subtracting their concatenation once. |
| Keys.MinusCovered | lib/immutable_record.rb:18 | When every element of the left list occurs in the right, the difference is empty, so no missing attribute is reported. |
| Assoc.KeysOf | lib/immutable_record.rb:17 | `opts.keys` lists one key per entry of the hash. |
| Assoc.KeysOfAt | lib/immutable_record.rb:17 | `opts.keys` lists the key of each entry at that entry's position, in insertion order. |
| Assoc.Lookup | lib/immutable_record.rb:28 | `Hash#fetch` finds a value exactly when the key is present, and the value found is paired with that key in the hash. |
| Assoc.Store | lib/immutable_record.rb:42 | After `h[k] = x`, `k` maps to `x` and every other key to what it mapped to before. An existing key keeps its position; a new key goes last. |
| Assoc.Merge | lib/immutable_record.rb:42-43 | The keys of a merge are the keys of both hashes. A key the right hash lacks keeps the left hash's value. |
| Assoc.MergeLookup | lib/immutable_record.rb:42-43 | In `merge`, the right-hand hash wins on every key it holds. |
| Assoc.MergeKeys | lib/immutable_record.rb:42-43 | A merge lists the left hash's keys in their order, then the right hash's new keys in theirs. |
| Assoc.MergeUnique | lib/immutable_record.rb:42-43 | A merge never holds a key twice. |
| Assoc.MergeFresh | lib/immutable_record.rb:80 | Merging a hash whose keys are all new appends its entries unchanged. |
| Assoc.FromPairs | lib/immutable_record.rb:80 | `Hash[pairs]` holds each key of the pairs once, and no other keys. |
| Assoc.FromDistinctPairs | lib/immutable_record.rb:80 | `Hash[pairs]` of pairs with no repeated key is those pairs, in order. |
| Assoc.Zip | lib/immutable_record.rb:80 | `keys.zip(values)` pairs each key with the value at the same position. |
| ImmutableRecord.Define | lib/immutable_record.rb:4-13 | Definition fails with "attributes should be symbols!" exactly when some attribute name is not a Symbol (a String, `nil` or `false`). Otherwise the class has the given attributes in the given order and a fresh identity. |
| ImmutableRecord.DefineTwiceDistinct | lib/immutable_record.rb:9-12 | Two definitions from the same arguments are two different classes. |
| ImmutableRecord.FetchAll | lib/immutable_record.rb:27-29 | Fetching each declared attribute returns, position by position, the option stored under it. |
| ImmutableRecord.New | lib/immutable_record.rb:16-31 | The error cases: it fails as Missing exactly when a declared attribute is absent, listing those attributes in declared order. Otherwise it fails as Unknown exactly when an option key is undeclared, listing those keys in option order. Otherwise the record binds each attribute to its option. |
| ImmutableRecord.NewAsWritten | lib/immutable_record.rb:16-31 | The code as written: any error it raises is the one `New` raises. It succeeds exactly when every attribute is among the option keys and every undeclared key is `nil` or `false`; then each attribute is bound to its option. |
| ImmutableRecord.SymbolsAreTruthy | lib/immutable_record.rb:17-18 | Attribute names are Symbols, so `missing_keys.any?` holds exactly when some attribute is missing. |
| ImmutableRecord.NewAsWrittenAgrees | lib/immutable_record.rb:22-24 | When no option key is `nil` or `false`, the code as written and `New` give the same result. |
| ImmutableRecord.NewExact | lib/immutable_record.rb:16-31 | Options whose keys are exactly the declared attributes build the record holding each attribute's option. |
| ImmutableRecord.NewComplete | lib/immutable_record.rb:22-29 | Options holding every attribute fail only on unknown keys, and otherwise bind every attribute to its option. |
| ImmutableRecord.Bracket | lib/immutable_record.rb:37-39 | `Item[opts]` is `Item.new(opts)`. It succeeds exactly when the option keys are the declared attributes, as a set. |
| ImmutableRecord.Read | lib/immutable_record.rb:10 | The reader of an attribute answers the value at that attribute's position. A name the class does not declare has no reader. |
| ImmutableRecord.NewThenRead | lib/immutable_record.rb:27-29 | Each reader of a newly built record answers the option given under its name. |
| ImmutableRecord.Attributes | lib/immutable_record.rb:79-81 | `__attributes__` holds each declared attribute once, and nothing else. Each attribute maps to its value. |
| ImmutableRecord.AttributesDeclaredOrder | lib/immutable_record.rb:79-81 | With no repeated names, `__attributes__` is the attributes paired with their values, in declared order. |
| ImmutableRecord.Clone | lib/immutable_record.rb:41-45 | `clone` never reports missing attributes. A successful clone is a well-formed record of the same class. |
| ImmutableRecord.CloneCopies | lib/immutable_record.rb:41-45 | `clone` with neither overrides nor a block returns an equal record. |
| ImmutableRecord.BlockArgument | lib/immutable_record.rb:42-43 | The hash a `clone` block receives maps each attribute to its override if there is one, else to its current value. |
| ImmutableRecord.MergedUnknown | lib/immutable_record.rb:42-44 | The unknown keys a clone reports are the overrides' undeclared keys, in the overrides' order. |
| ImmutableRecord.CloneOverrides | lib/immutable_record.rb:41-45 | `clone(overrides)` succeeds exactly when every override key is declared, and fails with exactly the undeclared ones. On success, overridden attributes take the override and the others keep their value. |
| ImmutableRecord.CloneWithBlock | lib/immutable_record.rb:41-45 | With a block, the block's result wins over the overrides, which win over the current values. It succeeds exactly when every key from either is declared. Otherwise it reports the undeclared override keys in their order, then the undeclared keys the block adds, in the block's order. |
| ImmutableRecord.Equal | lib/immutable_record.rb:55-57 | `==` holds exactly when the two records are the same record value: the same class and the same `__values__`. |
| ImmutableRecord.EqualIffReads | lib/immutable_record.rb:55-57 | Two records are `==` exactly when they share a class and every reader answers alike. |
| ImmutableRecord.EqualIffAttributes | lib/immutable_record.rb:55-57 | Two records are `==` exactly when they share a class and have the same `__attributes__`. |
| ImmutableRecord.SeparateDefinitionsNeverEqual | lib/immutable_record.rb:55-57 | Records of two separately defined classes are never `==`, even with identical names, attributes and values. The second class may come from any later state of the registry. |
| ImmutableRecord.Eql | lib/immutable_record.rb:59-65 | `eql?` compares `hash`, and it holds for every pair of `==` records, whatever the class and attribute hash functions. |
| ImmutableRecord.EqualImpliesEql | lib/immutable_record.rb:59-65 | Equal records have equal `hash` and are `eql?`, whatever hash functions underlie them. |
| ImmutableRecord.Inspect | lib/immutable_record.rb:51-53 | `inspect` is `to_s`. |
| ImmutableRecord.ToS | lib/immutable_record.rb:47-49 | `to_s` starts with the class name, followed by `[{`, and ends with `}]`: the braced hash rendering inside square brackets. |
| ImmutableRecord.ToSDeclaredOrder | lib/immutable_record.rb:47-49 | With no repeated names, `to_s` is the class name, then a bracketed hash rendering. The hash pairs each attribute with its value in declared order. |
| ImmutableRecord.Message | lib/immutable_record.rb:6-24 | Every message is non-empty. It starts with `M` exactly for a missing attribute and with `U` exactly for an unknown one. |
| ImmutableRecord.MessageTellsKind | lib/immutable_record.rb:4-24 | The three error messages never coincide across kinds, so a message tells which check failed. |
| ImmutableRecord.MissingOneNamesIt | lib/immutable_record.rb:19 | The message for one missing attribute is the prefix, then the key's rendering in brackets, and that rendering reads back as the key. |
| Render.IntToString | lib/immutable_record.rb:48 | An integer's rendering is non-empty and starts with `-` exactly when the integer is negative. |
| Render.IntRoundTrip | lib/immutable_record.rb:48 | The decimal rendering of an integer value reads back as that integer. |
| Render.IntToStringInjective | lib/immutable_record.rb:48 | Different integer values render differently. |
| Render.InspectKey | lib/immutable_record.rb:19-24 | A key's rendering starts with `:` exactly for a Symbol and with `"` exactly for a String. |
| Render.KeyRoundTrip | lib/immutable_record.rb:24 | A key's rendering reads back as that key, `nil` and `false` included, so the String `"foo"` never renders like the Symbol `:foo`. |
| Render.InspectKeys | lib/immutable_record.rb:19-24 | An empty key list renders as `[]`, and a single key as that key's rendering in square brackets. |
| Render.KeyStringsAt | lib/immutable_record.rb:19-24 | Each key of the list is rendered at its own position. |
| Render.KeyStringsAppend | lib/immutable_record.rb:19-24 | The renderings of a concatenation of key lists are the renderings of each part, in order. |
| Render.InspectKeysAppend | lib/immutable_record.rb:19-24 | `Array#inspect` of a concatenation is the two key lists' renderings joined by `, ` inside one pair of square brackets, so every key list, e.g. `[:foo, :bar]`, renders its keys in order. |
| Render.InspectHash | lib/immutable_record.rb:48 | A hash renders inside braces: `{}` when empty, one entry `key=>value` between braces when it has one. |
| Render.JoinAppend | lib/immutable_record.rb:19 | Joining with `", "` works part by part, in order. |
| Render.InspectHashAppend | lib/immutable_record.rb:48 | A hash renders its entries in insertion order: the rendering of a concatenation is the two entry lists joined inside one pair of braces. |
| Scenarios.DefineScenarios | spec/immutable_record_spec.rb:5-33 | `Item` and `SimilarItem` are the first two classes defined. `ImmutableRecord.new("foo")` fails with "attributes should be symbols!". |
| Scenarios.ItemNew | spec/immutable_record_spec.rb:38 | `Item.new(foo: x, bar: y)` holds `x` and `y`, in that order. |
| Scenarios.ReaderScenarios | spec/immutable_record_spec.rb:38-71 | The readers answer 1 and 2, and `Item[foo: 1, bar: 2]` is the same record. |
| Scenarios.MissingFoo | spec/immutable_record_spec.rb:45-47 | Without `foo`, construction fails reporting `[:foo]`. |
| Scenarios.MissingBar | spec/immutable_record_spec.rb:48-50 | Without `bar`, construction fails reporting `[:bar]`. |
| Scenarios.MissingBoth | spec/immutable_record_spec.rb:51-53 | With no options, construction fails reporting `[:foo, :bar]`. |
| Scenarios.UnknownSymbol | spec/immutable_record_spec.rb:56-58 | An extra `baz:` fails reporting `[:baz]`. |
| Scenarios.UnknownString | spec/immutable_record_spec.rb:59-64 | An extra String key `"foo"` fails reporting `["foo"]`. |
| Scenarios.NilKeyDropped | lib/immutable_record.rb:22-24 | With an extra `nil => 3`, the code as written builds `Item(1, 2)` and drops the key; `New` reports `[nil]`. |
| Scenarios.CloneCopyScenario | spec/immutable_record_spec.rb:75-78 | `item.clone` equals `item`. |
| Scenarios.CloneFoo | spec/immutable_record_spec.rb:79-82 | `clone(foo: z)` replaces `foo` and keeps `bar`. |
| Scenarios.CloneOverrideScenario | spec/immutable_record_spec.rb:79-82 | `item.clone(foo: 10)` is `Item.new(foo: 10, bar: 2)`. |
| Scenarios.CloneFooDoubleBar | spec/immutable_record_spec.rb:101-105 | `clone(foo: z) { bar * 2 }` takes `foo` from the overrides and `bar` from the block. |
| Scenarios.CloneBlockScenario | spec/immutable_record_spec.rb:101-105 | `item.clone(foo: 10) { bar * 2 }` is `Item.new(foo: 10, bar: 4)`. |
| Scenarios.EqualityScenarios | spec/immutable_record_spec.rb:108-113 | `item` equals a rebuilt `Item(1, 2)` but not `SimilarItem(1, 2)`. |
| Scenarios.RenderScenarios | spec/immutable_record_spec.rb:127-128 | `item.to_s` and `item.inspect` are `Item[{:foo=>1, :bar=>2}]`. |
| Scenarios.MissingFooMessage | spec/immutable_record_spec.rb:46-47 | The message for a missing `foo` is `Missing attribute(s): [:foo]`. |
| Scenarios.MissingBarMessage | spec/immutable_record_spec.rb:49-50 | The message for a missing `bar` is `Missing attribute(s): [:bar]`. |
| Scenarios.MissingBothMessage | spec/immutable_record_spec.rb:52-53 | The message for both missing is `Missing attribute(s): [:foo, :bar]`. |
| Scenarios.UnknownBazMessage | spec/immutable_record_spec.rb:57-58 | The message for an unknown `baz` is `Unknown attribute(s): [:baz]`. |
| Scenarios.UnknownStringMessage | spec/immutable_record_spec.rb:60-63 | The message for an unknown String `"foo"` is `Unknown attribute(s): ["foo"]`. |

## Left out

- `pretty_print` (lines 67-71) is not modelled. It is line-breaking layout by Ruby's `PP` library, outside the record's logic.
- `Value.name` (lines 33-35) is not modelled. For an anonymous class, Ruby's `super || to_s` falls back to `#<Class:0x...>`, an address. The model takes the class name as a given string.
- `ImmutableRecord.Define`: names are not checked beyond being Symbols. `attr_reader` raises `NameError` for a Symbol that is not a method name, such as `:"foo bar"`, `:""` or `:foo?`; the model accepts it. An attribute named after one of `Value`'s own methods (`:hash`, `:to_s`, `:inspect`) would replace that method, and `:class` would break `self.class::ATTRIBUTES`; the model keeps every operation as defined.
- `ImmutableRecord.Bracket`: builds on the corrected `New`, so an undeclared `nil` or `false` option key makes it fail where the source's `.[]`, which calls `initialize` as written, succeeds and drops the key (see Findings).
- `ImmutableRecord.CloneOverrides`: `Clone` builds on the corrected `New`, so an undeclared `nil` or `false` override key makes it fail where the source's `clone` succeeds and drops the key (see Findings).
- `ImmutableRecord.CloneWithBlock`: likewise, an undeclared `nil` or `false` key from the overrides or the block makes it fail where the source's `clone` succeeds and drops the key (see Findings).
- Keys other than Symbols, Strings, `nil` and `false` are not modelled. Integers and other objects are truthy, so they behave as Strings do in every check; only their rendering differs.
- `ImmutableRecord.HashCode` carries no contract of its own. Ruby's own `hash` functions are not modelled: `HashCode` takes the class hash and the attribute-hash function as parameters and works on 64-bit patterns. That records with equal attribute hashes but different class hashes get different record hashes is not proved, because bit-vector reasoning over the attribute hash is too costly. Only the consequence of equality is stated, by `Eql` and `EqualImpliesEql`.
- Object identity is not modelled. `clone` returning a new object (`to_not be(item)`) and `freeze` have no counterpart among immutable values.
- The metaprogramming is not modelled: `Class.new`, `attr_reader`, `const_set`, `instance_variable_set`, `public_send`. A class is its `Shape`; a reader is `Read`.
- `Read`: a name the class does not declare answers `None` instead of raising `NoMethodError`.
- `ImmutableRecord.Equal` compares `__values__` with Dafny equality. Ruby's `==` on arbitrary attribute values is not modelled. The `is_a?` test is modelled as "same class", since no subclassing of generated classes is modelled.
- `Render` renders only integer values. It renders symbols and strings without the quoting and escaping Ruby's `inspect` adds for unusual names. The scenarios use integers where the tests use strings.
- A `clone` block is a pure function of the merged hash. It cannot raise: a missing keyword argument would raise in Ruby.
- The option hash passed to `new` is assumed to hold each key once, as every Ruby `Hash` does. `Merge` and `FromPairs` keep that property. The lemmas that need it require `UniqueKeys`.
- The gem version constant (line 1, `immutable_record/version`) is not part of this model.

## Findings

| source | as written | input that shows it | evidently intended | confidence | as-written member | corrected member |
|---|---|---|---|---|---|---|
| lib/immutable_record.rb:22-24 | `extra_keys.any?` is false when every undeclared key is `nil` or `false`, so such a key is dropped without an error. The same `any?` at line 18 is harmless, because attributes are Symbols. | `Item.new(foo: 1, bar: 2, nil => 3)` builds `Item(1, 2)` | raise `Unknown attribute(s): [nil]`, as for any other undeclared key; `.[]` and `clone` call the same `initialize` and inherit the bug | not executed | `ImmutableRecord.NewAsWritten`, `Scenarios.NilKeyDropped` | `ImmutableRecord.New`, `ImmutableRecord.Bracket`, `ImmutableRecord.Clone`, `ImmutableRecord.CloneOverrides`, `ImmutableRecord.CloneWithBlock` |

=== FILE: assoc.dfy ===
/** Ruby's `Hash` as the record library uses it: an association list that keeps
    insertion order, where storing under a present key overwrites the value in
    place and storing under a new key appends. */
module Assoc {
  import opened Wrappers
  import opened Keys

  type Hash<V> = seq<(Key, V)>

  /** `Hash#keys`, in insertion order. */
  function KeysOf<V>(m: Hash<V>): (ks: seq<Key>)
    ensures |ks| == |m|
  {
    if m == [] then [] else [m[0].0] + KeysOf(m[1..])
  }

  /** The keys of a non-empty hash: its first key, then the keys of the rest;
      in a hash with unique keys the first key does not recur. */
  lemma {:induction false} KeysOfCons<V>(m: Hash<V>)
    requires m != []
    ensures KeysOf(m) == [m[0].0] + KeysOf(m[1..])
    ensures UniqueKeys(m) ==> UniqueKeys(m[1..]) && m[0].0 !in KeysOf(m[1..])
  {
    if UniqueKeys(m) {
      DistinctCons(m[0].0, KeysOf(m[1..]));
    }
  }

  /** `Hash#keys` lists the key of each entry at that entry's position. */
  lemma {:induction false} KeysOfAt<V>(m: Hash<V>)
    ensures forall i :: 0 <= i < |m| ==> KeysOf(m)[i] == m[i].0
  {
    if m != [] {
      KeysOfAt(m[1..]);
      assert KeysOf(m) == [m[0].0] + KeysOf(m[1..]);
    }
  }

  /** What every Ruby `Hash` satisfies: no key occurs twice. */
  predicate UniqueKeys<V>(m: Hash<V>) {
    Distinct(KeysOf(m))
  }

  /** `Hash#fetch`: the value stored under `k`; `None` stands for the
      `KeyError` it raises for a missing key. */
  function Lookup<V>(m: Hash<V>, k: Key): (r: Option<V>)
    ensures r.None? <==> k !in KeysOf(m)
    ensures r.Some? ==> (k, r.value) in m
  {
    if m == [] then None
    else if m[0].0 == k then Some(m[0].1)
    else Lookup(m[1..], k)
  }

  /** `Hash#[]=`: overwrite in place when `k` is present, append otherwise. */
  function Store<V>(m: Hash<V>, k: Key, x: V): (r: Hash<V>)
    ensures KeysOf(r) == if k in KeysOf(m) then KeysOf(m) else KeysOf(m) + [k]
    ensures forall j :: Lookup(r, j) == if j == k then Some(x) else Lookup(m, j)
  {
    if m == [] then [(k, x)]
    else if m[0].0 == k then [(k, x)] + m[1..]
    else [m[0]] + Store(m[1..], k, x)
  }

  /** `Hash#merge`: store every pair of `n` into `m`, left to right. Keys of
      `m` keep their places; keys new to `m` follow in `n`'s order. */
  function Merge<V>(m: Hash<V>, n: Hash<V>): (r: Hash<V>)
    ensures forall k :: k in KeysOf(r) <==> k in KeysOf(m) || k in KeysOf(n)
    ensures forall k :: k !in KeysOf(n) ==> Lookup(r, k) == Lookup(m, k)
    decreases |n|
  {
    if n == [] then m
    else Merge(Store(m, n[0].0, n[0].1), n[1..])
  }

  /** `Hash[pairs]`: a hash built by storing the pairs in order into an empty one. */
  function FromPairs<V>(ps: Hash<V>): (r: Hash<V>)
    ensures UniqueKeys(r)
    ensures forall k :: k in KeysOf(r) <==> k in KeysOf(ps)
  {
    MergeUnique([], ps);
    Merge([], ps)
  }

  /** Merging into a hash keeps its keys unique. */
  lemma {:induction false} MergeUnique<V>(m: Hash<V>, n: Hash<V>)
    requires UniqueKeys(m)
    ensures UniqueKeys(Merge(m, n))
    decreases |n|
  {
    if n != [] {
      var k := n[0].0;
      if k !in KeysOf(m) {
        DistinctSnoc(KeysOf(m), k);
      }
      MergeUnique(Store(m, k, n[0].1), n[1..]);
    }
  }

  /** In a merge the right-hand side wins on every key it holds. */
  lemma {:induction false} MergeLookup<V>(m: Hash<V>, n: Hash<V>, k: Key)
    requires UniqueKeys(n)
    ensures Lookup(Merge(m, n), k) == if k in KeysOf(n) then Lookup(n, k) else Lookup(m, k)
    decreases |n|
  {
    if n != [] {
      KeysOfCons(n);
      MergeLookup(Store(m, n[0].0, n[0].1), n[1..], k);
    }
  }

  /** When every pair of `n` under `k` carries `x`, the merge holds `x` under `k`
      (this covers `Hash[pairs]` with a repeated key bound to one value). */
  lemma {:induction false} MergeLookupAgreeing<V>(m: Hash<V>, n: Hash<V>, k: Key, x: V)
    requires k in KeysOf(n)
    requires forall i :: 0 <= i < |n| && n[i].0 == k ==> n[i].1 == x
    ensures Lookup(Merge(m, n), k) == Some(x)
    decreases |n|
  {
    assert KeysOf(n) == [n[0].0] + KeysOf(n[1..]);
    var m' := Store(m, n[0].0, n[0].1);
    if k in KeysOf(n[1..]) {
      MergeLookupAgreeing(m', n[1..], k, x);
    } else {
      assert n[0].0 == k;
    }
  }

  /** The key order `Hash#merge` produces: the receiver's keys, then the
      argument's new keys in the argument's order. */
  lemma {:induction false} MergeKeys<V>(m: Hash<V>, n: Hash<V>)
    requires UniqueKeys(n)
    ensures KeysOf(Merge(m, n)) == KeysOf(m) + Minus(KeysOf(n), KeysOf(m))
    decreases |n|
  {
    if n != [] {
      var m' := Store(m, n[0].0, n[0].1);
      KeysOfCons(n);
      MergeKeys(m', n[1..]);
      AppendNewKey(KeysOf(m), n[0].0, KeysOf(n[1..]));
    }
  }

  /** One step of `MergeKeys`, on key lists only. */
  lemma {:induction false} AppendNewKey(ks: seq<Key>, k: Key, rest: seq<Key>)
    requires k !in rest
    ensures var ks' := if k in ks then ks else ks + [k];
      ks' + Minus(rest, ks') == ks + Minus([k] + rest, ks)
  {
    MinusAppend([k], rest, ks);
    if k in ks {
      assert Minus([k], ks) == [];
    } else {
      AppendAbsentKey(ks, k, rest);
    }
  }

  /** The case of `AppendNewKey` where the key is new to `ks`. */
  lemma {:induction false} AppendAbsentKey(ks: seq<Key>, k: Key, rest: seq<Key>)
    requires k !in rest && k !in ks
    requires Minus([k] + rest, ks) == Minus([k], ks) + Minus(rest, ks)
    ensures (ks + [k]) + Minus(rest, ks + [k]) == ks + Minus([k] + rest, ks)
  {
    assert Minus([k], ks) == [k];
    MinusSameMembers(rest, ks + [k], ks);
  }

  /** Merging keys that are all new just appends them. */
  lemma {:induction false} MergeFresh<V>(m: Hash<V>, n: Hash<V>)
    requires UniqueKeys(n)
    requires forall k :: k in KeysOf(n) ==> k !in KeysOf(m)
    ensures Merge(m, n) == m + n
    decreases |n|
  {
    if n != [] {
      KeysOfCons(n);
      var m' := Store(m, n[0].0, n[0].1);
      StoreFresh(m, n[0].0, n[0].1);
      MergeFresh(m', n[1..]);
      ConsPair(m, n);
    }
  }

  /** Moving the head of `n` onto the end of `m`. */
  lemma {:induction false} ConsPair<V>(m: Hash<V>, n: Hash<V>)
    requires n != []
    ensures (m + [n[0]]) + n[1..] == m + n
  {
    assert [n[0]] + n[1..] == n;
  }

  /** Storing under a new key appends the pair. */
  lemma {:induction false} StoreFresh<V>(m: Hash<V>, k: Key, x: V)
    requires k !in KeysOf(m)
    ensures Store(m, k, x) == m + [(k, x)]
  {
    if m != [] {
      assert KeysOf(m) == [m[0].0] + KeysOf(m[1..]);
      StoreFresh(m[1..], k, x);
      assert [m[0]] + (m[1..] + [(k, x)]) == m + [(k, x)];
    }
  }

  /** `Hash[pairs]` of pairs with distinct keys is the pair list itself. */
  lemma {:induction false} FromDistinctPairs<V>(ps: Hash<V>)
    requires UniqueKeys(ps)
    ensures FromPairs(ps) == ps
  {
    MergeFresh([], ps);
    assert [] + ps == ps;
  }

  /** `Array#zip` of keys with values of the same length. */
  function Zip<V>(ks: seq<Key>, vs: seq<V>): (r: Hash<V>)
    requires |ks| == |vs|
    ensures |r| == |ks|
    ensures KeysOf(r) == ks
    ensures forall i :: 0 <= i < |r| ==> r[i] == (ks[i], vs[i])
  {
    if ks == [] then [] else [(ks[0], vs[0])] + Zip(ks[1..], vs[1..])
  }

  /** A key all of whose pairs carry `x` is looked up as `x`. */
  lemma {:induction false} LookupAgreeing<V>(m: Hash<V>, k: Key, x: V)
    requires k in KeysOf(m)
    requires forall i :: 0 <= i < |m| && m[i].0 == k ==> m[i].1 == x
    ensures Lookup(m, k) == Some(x)
  {
    if m[0].0 != k {
      assert KeysOf(m) == [m[0].0] + KeysOf(m[1..]);
      LookupAgreeing(m[1..], k, x);
    }
  }
}

=== FILE: keys.dfy ===
/** Hash keys and the Ruby `Array` operations the record library applies to key lists. */
module Keys {

  /** A Ruby object used as a hash key or attribute name: a Symbol (`:foo`),
      a String (`"foo"`), `nil` or `false`. A string never equals the symbol
      with the same text. */
  datatype Key = Sym(name: string) | Str(text: string) | Nil | False

  /** Ruby's truthiness: every object except `nil` and `false`. */
  predicate Truthy(k: Key) {
    !k.Nil? && !k.False?
  }

  /** `Array#any?` without a block: some element is truthy. */
  predicate AnyTruthy(ks: seq<Key>) {
    exists i :: 0 <= i < |ks| && Truthy(ks[i])
  }

  /** `any?` is false exactly when every element is `nil` or `false`; so it is
      false for the empty list, and for `[nil]` although that list is not
      empty. */
  lemma {:induction false} NoneTruthy(ks: seq<Key>)
    ensures !AnyTruthy(ks) <==> forall k :: k in ks ==> k == Nil || k == False
  {
    if AnyTruthy(ks) {
      var i :| 0 <= i < |ks| && Truthy(ks[i]);
      assert ks[i] in ks;
    }
  }

  /** No element occurs twice. */
  predicate Distinct<T(==)>(s: seq<T>) {
    forall i, j :: 0 <= i < j < |s| ==> s[i] != s[j]
  }

  /** Appending a new element keeps a sequence free of repetitions. */
  lemma {:induction false} DistinctSnoc<T>(s: seq<T>, x: T)
    requires Distinct(s) && x !in s
    ensures Distinct(s + [x])
  {
  }

  /** The tail of a repetition-free sequence is repetition-free and misses the head. */
  lemma {:induction false} DistinctCons<T>(x: T, s: seq<T>)
    requires Distinct([x] + s)
    ensures Distinct(s) && x !in s
  {
    var t := [x] + s;
    assert t[0] == x;
    assert forall i :: 0 <= i < |s| ==> s[i] == t[i + 1];
  }

  /** Ruby's `Array#-`: the elements of `a` that do not occur in `b`, kept in
      `a`'s order (repetitions in `a` are kept too). */
  function Minus(a: seq<Key>, b: seq<Key>): (r: seq<Key>)
    ensures forall x :: x in r <==> x in a && x !in b
    ensures |r| <= |a|
    ensures Distinct(a) ==> Distinct(r)
  {
    if a == [] then []
    else (if a[0] in b then [] else [a[0]]) + Minus(a[1..], b)
  }

  /** `Array#-` works element by element: it distributes over concatenation,
      so the survivors of `a1` all come before the survivors of `a2`. */
  lemma {:induction false} MinusAppend(a1: seq<Key>, a2: seq<Key>, b: seq<Key>)
    ensures Minus(a1 + a2, b) == Minus(a1, b) + Minus(a2, b)
  {
    if a1 == [] {
      assert a1 + a2 == a2;
    } else {
      assert (a1 + a2)[1..] == a1[1..] + a2;
      MinusAppend(a1[1..], a2, b);
    }
  }

  /** Only which elements `b` holds matters, not their order or multiplicity. */
  lemma {:induction false} MinusSameMembers(a: seq<Key>, b: seq<Key>, c: seq<Key>)
    requires forall x :: x in a ==> (x in b <==> x in c)
    ensures Minus(a, b) == Minus(a, c)
  {
    if a != [] {
      assert forall x :: x in a[1..] ==> x in a;
      MinusSameMembers(a[1..], b, c);
    }
  }

  /** Subtracting a superset leaves nothing. */
  lemma {:induction false} MinusCovered(a: seq<Key>, b: seq<Key>)
    requires forall x :: x in a ==> x in b
    ensures Minus(a, b) == []
  {
    if a != [] {
      assert forall x :: x in a[1..] ==> x in a;
      MinusCovered(a[1..], b);
    }
  }

  /** Subtracting twice is subtracting the union once. */
  lemma {:induction false} MinusMinus(a: seq<Key>, b: seq<Key>, c: seq<Key>)
    ensures Minus(Minus(a, b), c) == Minus(a, b + c)
  {
    if a != [] {
      MinusMinus(a[1..], b, c);
      var head := if a[0] in b then [] else [a[0]];
      MinusAppend(head, Minus(a[1..], b), c);
    }
  }
}

=== FILE: record.dfy ===
/** `ImmutableRecord.new`, which generates a record class from a list of
    attribute names, and the behaviour every generated class inherits from
    `ImmutableRecord::Value`: validated construction, readers, `clone`,
    `==`, `eql?`, `hash`, `to_s` and `inspect`. */
module ImmutableRecord {
  import opened Wrappers
  import opened Keys
  import opened Assoc
  import opened Render

  /** The `ArgumentError`s the library raises. */
  datatype Error =
    | NotSymbols                // an attribute name is not a Symbol
    | Missing(keys: seq<Key>)   // declared attributes absent from the options
    | Unknown(keys: seq<Key>)   // option keys that are not declared attributes

  /** A generated record class: its identity, the name of the constant it is
      assigned to, and its `ATTRIBUTES`. */
  datatype Shape = Shape(id: nat, name: string, attributes: seq<Key>)

  /** The supply of class identities: every identity below `next` is taken. */
  datatype Registry = Registry(next: nat)

  datatype Defined = Defined(registry: Registry, shape: Shape)

  /** An instance of a record class: the class and `__values__`, the attribute
      values in declared order. */
  datatype Value<V> = Value(shape: Shape, values: seq<V>)

  /** What every constructed record satisfies: one value per declared
      attribute, and an attribute name declared twice holds one value. */
  ghost predicate WellFormed<V>(v: Value<V>) {
    && |v.values| == |v.shape.attributes|
    && forall i, j :: 0 <= i < |v.values| && 0 <= j < |v.values| && v.shape.attributes[i] == v.shape.attributes[j] ==> v.values[i] == v.values[j]
  }

  // ---------------------------------------------------------------------------
  // Defining a record class

  /** `ImmutableRecord.new(*attributes)`: refuses any attribute that is not a
      Symbol; otherwise a new class with a fresh identity whose `ATTRIBUTES`
      are the arguments in order. Repeated names are not refused. */
  function Define(reg: Registry, name: string, attributes: seq<Key>): (r: Result<Defined, Error>)
    ensures r.Err? <==> exists i :: 0 <= i < |attributes| && !attributes[i].Sym?
    ensures r.Err? ==> r.error == NotSymbols
    ensures r.Ok? ==> r.value.shape.attributes == attributes && r.value.shape.name == name
    ensures r.Ok? ==> reg.next <= r.value.shape.id < r.value.registry.next
  {
    if forall i | 0 <= i < |attributes| :: attributes[i].Sym? then
      Ok(Defined(Registry(reg.next + 1), Shape(reg.next, name, attributes)))
    else
      Err(NotSymbols)
  }

  /** Two definitions, even with the same name and attributes, give two
      different classes. */
  lemma {:induction false} DefineTwiceDistinct(reg: Registry, name: string, attributes: seq<Key>)
    requires Define(reg, name, attributes).Ok?
    ensures var first := Define(reg, name, attributes).value;
      var second := Define(first.registry, name, attributes);
      second.Ok? && second.value.shape != first.shape
  {
  }

  // ---------------------------------------------------------------------------
  // Construction

  /** `ATTRIBUTES.each { |attr| opts.fetch(attr) }`. */
  function FetchAll<V>(opts: Hash<V>, attributes: seq<Key>): (r: seq<V>)
    requires forall a :: a in attributes ==> a in KeysOf(opts)
    ensures |r| == |attributes|
    ensures forall i :: 0 <= i < |attributes| ==> Lookup(opts, attributes[i]) == Some(r[i])
  {
    if attributes == [] then []
    else [Lookup(opts, attributes[0]).value] + FetchAll(opts, attributes[1..])
  }

  /** `Value#initialize(opts)`: missing attributes are reported first, in
      declared order; then unknown keys, in the order of the options; otherwise
      each attribute is bound to the option under its name. */
  function New<V>(s: Shape, opts: Hash<V>): (r: Result<Value<V>, Error>)
    ensures r.Ok? || r.error.Missing? || r.error.Unknown?
    ensures (r.Err? && r.error.Missing?) <==> exists a :: a in s.attributes && a !in KeysOf(opts)
    ensures r.Err? && r.error.Missing? ==> r.error.keys == Minus(s.attributes, KeysOf(opts))
    ensures (r.Err? && r.error.Unknown?) <==>
      (forall a :: a in s.attributes ==> a in KeysOf(opts)) && exists k :: k in KeysOf(opts) && k !in s.attributes
    ensures r.Err? && r.error.Unknown? ==> r.error.keys == Minus(KeysOf(opts), s.attributes)
    ensures r.Ok? ==> r.value.shape == s && WellFormed(r.value)
    ensures r.Ok? ==> forall i :: 0 <= i < |s.attributes| ==> Lookup(opts, s.attributes[i]) == Some(r.value.values[i])
  {
    var missing := Minus(s.attributes, KeysOf(opts));
    if missing != [] then
      assert missing[0] in missing;
      Err(Missing(missing))
    else
      var extra := Minus(KeysOf(opts), s.attributes);
      if extra != [] then
        assert extra[0] in extra;
        Err(Unknown(extra))
      else
        Ok(Value(s, FetchAll(opts, s.attributes)))
  }

  /** `Value#initialize(opts)` exactly as written. Both checks ask `any?`,
      which is false for a list holding only `nil` and `false`: an undeclared
      `nil` or `false` option key is not reported and is silently dropped.
      `New` reports it with the `Unknown attribute(s)` message, as evidently
      intended, and is the construction the rest of the model uses. The
      attributes are Symbols, as `ImmutableRecord.new` guarantees. */
  function NewAsWritten<V>(s: Shape, opts: Hash<V>): (r: Result<Value<V>, Error>)
    requires forall i :: 0 <= i < |s.attributes| ==> s.attributes[i].Sym?
    ensures r.Err? ==> r == New(s, opts)
    ensures r.Ok? <==>
      (forall a :: a in s.attributes ==> a in KeysOf(opts)) &&
      forall k :: k in KeysOf(opts) && k !in s.attributes ==> !Truthy(k)
    ensures r.Ok? ==> r.value.shape == s && WellFormed(r.value)
    ensures r.Ok? ==> forall i :: 0 <= i < |s.attributes| ==> Lookup(opts, s.attributes[i]) == Some(r.value.values[i])
  {
    var missing := Minus(s.attributes, KeysOf(opts));
    SymbolsAreTruthy(s.attributes, KeysOf(opts));
    if AnyTruthy(missing) then
      Err(Missing(missing))
    else
      var extra := Minus(KeysOf(opts), s.attributes);
      if AnyTruthy(extra) then
        Err(Unknown(extra))
      else
        Ok(Value(s, FetchAll(opts, s.attributes)))
  }

  /** Missing Symbols are truthy, so `missing_keys.any?` is `missing_keys != []`. */
  lemma {:induction false} SymbolsAreTruthy(attributes: seq<Key>, keys: seq<Key>)
    requires forall i :: 0 <= i < |attributes| ==> attributes[i].Sym?
    ensures AnyTruthy(Minus(attributes, keys)) <==> Minus(attributes, keys) != []
  {
    var missing := Minus(attributes, keys);
    if missing != [] {
      assert missing[0] in attributes;
      assert Truthy(missing[0]);
    }
  }

  /** Without `nil` or `false` among the option keys, the code as written and
      the intended construction agree. */
  lemma {:induction false} NewAsWrittenAgrees<V>(s: Shape, opts: Hash<V>)
    requires forall i :: 0 <= i < |s.attributes| ==> s.attributes[i].Sym?
    requires forall k :: k in KeysOf(opts) ==> Truthy(k)
    ensures NewAsWritten(s, opts) == New(s, opts)
  {
    var extra := Minus(KeysOf(opts), s.attributes);
    if extra != [] {
      assert extra[0] in KeysOf(opts);
      assert AnyTruthy(extra);
    }
  }

  /** Options whose keys are exactly the declared attributes construct the
      record holding, position by position, the option under each attribute. */
  lemma {:induction false} NewExact<V>(s: Shape, opts: Hash<V>, values: seq<V>)
    requires forall k :: k in KeysOf(opts) <==> k in s.attributes
    requires |values| == |s.attributes|
    requires forall i :: 0 <= i < |values| ==> Lookup(opts, s.attributes[i]) == Some(values[i])
    ensures New(s, opts) == Ok(Value(s, values))
  {
    MinusCovered(s.attributes, KeysOf(opts));
    MinusCovered(KeysOf(opts), s.attributes);
    var fetched := FetchAll(opts, s.attributes);
    assert New(s, opts) == Ok(Value(s, fetched));
    assert fetched == values by {
      assert forall i :: 0 <= i < |values| ==> Some(fetched[i]) == Some(values[i]);
    }
  }

  /** `Value.[](opts)`, the shorthand for `new`. */
  function Bracket<V>(s: Shape, opts: Hash<V>): (r: Result<Value<V>, Error>)
    ensures r == New(s, opts)
    ensures r.Ok? <==> forall k :: k in KeysOf(opts) <==> k in s.attributes
  {
    New(s, opts)
  }

  // ---------------------------------------------------------------------------
  // Readers and `__attributes__`

  /** Every pair of the zipped attributes under `k` carries the same value. */
  lemma {:induction false} PairsLookup<V>(v: Value<V>, k: Key)
    requires WellFormed(v)
    ensures forall i :: 0 <= i < |v.values| && v.shape.attributes[i] == k ==>
      Lookup(Zip(v.shape.attributes, v.values), k) == Some(v.values[i])
  {
    var pairs := Zip(v.shape.attributes, v.values);
    forall i | 0 <= i < |v.values| && v.shape.attributes[i] == k
      ensures Lookup(pairs, k) == Some(v.values[i])
    {
      LookupAgreeing(pairs, k, v.values[i]);
    }
  }

  /** The reader `attr_reader` generates for `k`; `None` stands for the
      `NoMethodError` a name the class does not declare would raise. */
  function Read<V>(v: Value<V>, k: Key): (r: Option<V>)
    requires WellFormed(v)
    ensures k !in v.shape.attributes ==> r == None
    ensures forall i :: 0 <= i < |v.values| && v.shape.attributes[i] == k ==> r == Some(v.values[i])
  {
    PairsLookup(v, k);
    Lookup(Zip(v.shape.attributes, v.values), k)
  }

  /** Every declared attribute is found in `Hash[ATTRIBUTES.zip(__values__)]`
      with its value. */
  lemma {:induction false} AttributesLookup<V>(v: Value<V>)
    requires WellFormed(v)
    ensures forall i :: 0 <= i < |v.values| ==>
      Lookup(FromPairs(Zip(v.shape.attributes, v.values)), v.shape.attributes[i]) == Some(v.values[i])
  {
    var pairs := Zip(v.shape.attributes, v.values);
    forall i | 0 <= i < |v.values|
      ensures Lookup(FromPairs(pairs), v.shape.attributes[i]) == Some(v.values[i])
    {
      MergeLookupAgreeing([], pairs, v.shape.attributes[i], v.values[i]);
    }
  }

  /** `__attributes__`: the hash from each declared attribute to its value. */
  function Attributes<V>(v: Value<V>): (r: Hash<V>)
    requires WellFormed(v)
    ensures UniqueKeys(r)
    ensures forall k :: k in KeysOf(r) <==> k in v.shape.attributes
    ensures forall i :: 0 <= i < |v.values| ==> Lookup(r, v.shape.attributes[i]) == Some(v.values[i])
  {
    AttributesLookup(v);
    FromPairs(Zip(v.shape.attributes, v.values))
  }

  /** With no repeated attribute names, `__attributes__` holds exactly one
      entry per attribute, in declared order. */
  lemma {:induction false} AttributesDeclaredOrder<V>(v: Value<V>)
    requires WellFormed(v) && Distinct(v.shape.attributes)
    ensures Attributes(v) == Zip(v.shape.attributes, v.values)
  {
    FromDistinctPairs(Zip(v.shape.attributes, v.values));
  }

  /** A successful construction reads back every option under its attribute. */
  lemma {:induction false} NewThenRead<V>(s: Shape, opts: Hash<V>)
    requires New(s, opts).Ok?
    ensures forall k :: k in s.attributes ==> Read(New(s, opts).value, k) == Lookup(opts, k)
  {
    var v := New(s, opts).value;
    forall k | k in s.attributes
      ensures Read(v, k) == Lookup(opts, k)
    {
      var i :| 0 <= i < |s.attributes| && s.attributes[i] == k;
      assert Read(v, k) == Some(v.values[i]);
    }
  }

  // ---------------------------------------------------------------------------
  // clone

  /** `Value#clone(opts = {}, &block)`: the current attributes merged with the
      overrides, then, given a block, merged with what the block returns for
      that hash; the result is validated like a fresh construction. Every
      declared attribute is present in the merge, so it never reports missing
      attributes. */
  function Clone<V>(v: Value<V>, overrides: Hash<V>, block: Option<Hash<V> -> Hash<V>>): (r: Result<Value<V>, Error>)
    requires WellFormed(v)
    ensures r.Ok? || r.error.Unknown?
    ensures r.Ok? ==> r.value.shape == v.shape && WellFormed(r.value)
  {
    var opts := Merge(Attributes(v), overrides);
    var opts' := if block.Some? then Merge(opts, block.value(opts)) else opts;
    New(v.shape, opts')
  }

  /** `clone` with no arguments copies the record. */
  lemma {:induction false} CloneCopies<V>(v: Value<V>)
    requires WellFormed(v)
    ensures Clone(v, [], None) == Ok(v)
  {
    var r := Clone(v, [], None);
    assert Merge(Attributes(v), []) == Attributes(v);
    assert r.Ok? && r.value.values == v.values;
  }

  /** The hash a block passed to `clone` receives: each attribute's override
      if there is one, its current value otherwise. */
  lemma {:induction false} BlockArgument<V>(v: Value<V>, overrides: Hash<V>)
    requires WellFormed(v) && UniqueKeys(overrides)
    ensures var opts := Merge(Attributes(v), overrides);
      forall i :: 0 <= i < |v.values| ==>
        Lookup(opts, v.shape.attributes[i]) ==
          if v.shape.attributes[i] in KeysOf(overrides) then Lookup(overrides, v.shape.attributes[i])
          else Some(v.values[i])
  {
    forall i | 0 <= i < |v.values| {
      MergeLookup(Attributes(v), overrides, v.shape.attributes[i]);
    }
  }

  /** Construction from options that hold every declared attribute: it
      fails exactly on the unknown keys and otherwise binds each attribute to
      its option. */
  lemma {:induction false} NewComplete<V>(s: Shape, opts: Hash<V>)
    requires forall a :: a in s.attributes ==> a in KeysOf(opts)
    ensures var r := New(s, opts);
      && (r.Ok? <==> forall k :: k in KeysOf(opts) ==> k in s.attributes)
      && (r.Err? ==> r.error == Unknown(Minus(KeysOf(opts), s.attributes)))
      && (r.Ok? ==> forall i :: 0 <= i < |s.attributes| ==> Some(r.value.values[i]) == Lookup(opts, s.attributes[i]))
  {
  }

  /** The unknown keys of the merged hash `clone` validates are the unknown
      keys of the overrides, in the overrides' order. */
  lemma {:induction false} MergedUnknown<V>(v: Value<V>, overrides: Hash<V>)
    requires WellFormed(v) && UniqueKeys(overrides)
    ensures Minus(KeysOf(Merge(Attributes(v), overrides)), v.shape.attributes)
      == Minus(KeysOf(overrides), v.shape.attributes)
  {
    var attrs := v.shape.attributes;
    var ka := KeysOf(Attributes(v));
    var ko := KeysOf(overrides);
    MergeKeys(Attributes(v), overrides);
    MinusAppend(ka, Minus(ko, ka), attrs);
    MinusCovered(ka, attrs);
    MinusMinus(ko, ka, attrs);
    MinusSameMembers(ko, ka + attrs, attrs);
  }

  /** `clone(overrides)`: an override replaces its attribute and the other
      attributes keep their values; a key the class does not declare makes it
      fail with exactly those keys, in the overrides' order. */
  lemma {:induction false} CloneOverrides<V>(v: Value<V>, overrides: Hash<V>)
    requires WellFormed(v) && UniqueKeys(overrides)
    ensures var r := Clone(v, overrides, None);
      && (r.Ok? <==> forall k :: k in KeysOf(overrides) ==> k in v.shape.attributes)
      && (r.Err? ==> r.error == Unknown(Minus(KeysOf(overrides), v.shape.attributes)))
      && (r.Ok? ==> forall i :: 0 <= i < |v.values| ==>
            Some(r.value.values[i]) ==
              if v.shape.attributes[i] in KeysOf(overrides) then Lookup(overrides, v.shape.attributes[i])
              else Some(v.values[i]))
  {
    var opts := Merge(Attributes(v), overrides);
    assert Clone(v, overrides, None) == New(v.shape, opts);
    NewComplete(v.shape, opts);
    MergedUnknown(v, overrides);
    BlockArgument(v, overrides);
  }

  /** `clone(overrides) { |attrs| ... }`: what the block returns wins over the
      overrides, which win over the current values. Undeclared keys make it
      fail with `Unknown`, listing those of the overrides in their order, then
      the block's further ones in the block result's order. */
  lemma {:induction false} CloneWithBlock<V>(v: Value<V>, overrides: Hash<V>, f: Hash<V> -> Hash<V>)
    requires WellFormed(v) && UniqueKeys(overrides)
    requires UniqueKeys(f(Merge(Attributes(v), overrides)))
    ensures var given := f(Merge(Attributes(v), overrides));
      var r := Clone(v, overrides, Some(f));
      && (r.Ok? <==> forall k :: k in KeysOf(overrides) + KeysOf(given) ==> k in v.shape.attributes)
      && (r.Err? ==> r.error == Unknown(Minus(KeysOf(overrides), v.shape.attributes)
            + Minus(KeysOf(given), v.shape.attributes + KeysOf(overrides))))
      && (r.Ok? ==> forall i :: 0 <= i < |v.values| ==>
            Some(r.value.values[i]) ==
              if v.shape.attributes[i] in KeysOf(given) then Lookup(given, v.shape.attributes[i])
              else if v.shape.attributes[i] in KeysOf(overrides) then Lookup(overrides, v.shape.attributes[i])
              else Some(v.values[i]))
  {
    var attrs := v.shape.attributes;
    var opts := Merge(Attributes(v), overrides);
    var given := f(opts);
    var final := Merge(opts, given);
    assert Clone(v, overrides, Some(f)) == New(v.shape, final);
    NewComplete(v.shape, final);
    BlockArgument(v, overrides);
    MergedUnknown(v, overrides);
    MergeKeys(opts, given);
    MinusAppend(KeysOf(opts), Minus(KeysOf(given), KeysOf(opts)), attrs);
    MinusMinus(KeysOf(given), KeysOf(opts), attrs);
    MinusSameMembers(KeysOf(given), KeysOf(opts) + attrs, attrs + KeysOf(overrides));
    forall i | 0 <= i < |v.values| {
      MergeLookup(opts, given, v.shape.attributes[i]);
    }
  }

  // ---------------------------------------------------------------------------
  // ==, hash and eql?

  /** `Value#==`: the other record is an instance of the same class and
      `__values__` agree pairwise. */
  predicate Equal<V(==)>(a: Value<V>, b: Value<V>)
    ensures Equal(a, b) <==> a == b
  {
    a.shape == b.shape && a.values == b.values
  }

  /** Equality is same class and every reader giving the same answer. */
  lemma {:induction false} EqualIffReads<V>(a: Value<V>, b: Value<V>)
    requires WellFormed(a) && WellFormed(b)
    ensures Equal(a, b) <==> a.shape == b.shape && forall k :: Read(a, k) == Read(b, k)
  {
    if a.shape == b.shape && forall k :: Read(a, k) == Read(b, k) {
      forall i | 0 <= i < |a.values|
        ensures a.values[i] == b.values[i]
      {
        var k := a.shape.attributes[i];
        assert Read(a, k) == Some(a.values[i]);
        assert Read(b, k) == Some(b.values[i]);
      }
    }
  }

  /** Equality is same class and the same `__attributes__`. */
  lemma {:induction false} EqualIffAttributes<V>(a: Value<V>, b: Value<V>)
    requires WellFormed(a) && WellFormed(b)
    ensures Equal(a, b) <==> a.shape == b.shape && Attributes(a) == Attributes(b)
  {
    if a.shape == b.shape && Attributes(a) == Attributes(b) {
      forall i | 0 <= i < |a.values|
        ensures a.values[i] == b.values[i]
      {
        var k := a.shape.attributes[i];
        assert Lookup(Attributes(a), k) == Some(a.values[i]);
        assert Lookup(Attributes(b), k) == Some(b.values[i]);
      }
    }
  }

  /** Records of two separately defined classes are never equal, whatever
      their names, attributes and values: the second definition draws from
      any registry that has moved past the first. */
  lemma {:induction false} SeparateDefinitionsNeverEqual<V>(
    reg: Registry, name1: string, attributes1: seq<Key>,
    reg2: Registry, name2: string, attributes2: seq<Key>,
    a: Value<V>, b: Value<V>)
    requires Define(reg, name1, attributes1).Ok?
    requires reg2.next >= Define(reg, name1, attributes1).value.registry.next
    requires Define(reg2, name2, attributes2).Ok?
    requires a.shape == Define(reg, name1, attributes1).value.shape
    requires b.shape == Define(reg2, name2, attributes2).value.shape
    ensures !Equal(a, b)
  {
  }

  /** `Value#hash`: the class's hash XOR the hash of `__attributes__`. Ruby's
      hash functions are not modelled; they are the parameters `classHash` and
      `hashOf`, and the results are 64-bit patterns. */
  function HashCode<V>(v: Value<V>, classHash: Shape -> bv64, hashOf: Hash<V> -> bv64): bv64
    requires WellFormed(v)
  {
    classHash(v.shape) ^ hashOf(Attributes(v))
  }

  /** `Value#eql?`, which hash-keyed lookup uses: the hashes agree. */
  predicate Eql<V(==)>(a: Value<V>, b: Value<V>, classHash: Shape -> bv64, hashOf: Hash<V> -> bv64)
    requires WellFormed(a) && WellFormed(b)
    ensures Equal(a, b) ==> Eql(a, b, classHash, hashOf)
  {
    HashCode(a, classHash, hashOf) == HashCode(b, classHash, hashOf)
  }

  /** Equal records hash alike, whatever the underlying hash functions, so an
      equal record finds the entry of a hash keyed by records. */
  lemma {:induction false} EqualImpliesEql<V>(a: Value<V>, b: Value<V>, classHash: Shape -> bv64, hashOf: Hash<V> -> bv64)
    requires WellFormed(a) && WellFormed(b) && Equal(a, b)
    ensures HashCode(a, classHash, hashOf) == HashCode(b, classHash, hashOf)
    ensures Eql(a, b, classHash, hashOf)
  {
  }

  // ---------------------------------------------------------------------------
  // to_s, inspect and the error messages

  /** `Value#to_s`: the class name, then `__attributes__` rendered by
      `Hash#inspect` inside square brackets. */
  function ToS(v: Value<int>): (s: string)
    requires WellFormed(v)
    ensures var n := |v.shape.name|;
      |s| >= n + 4 && s[..n] == v.shape.name && s[n] == '[' && s[n + 1] == '{' && s[|s| - 2] == '}' && s[|s| - 1] == ']'
  {
    var h := InspectHash(Attributes(v));
    Bracketed(v.shape.name, h);
    v.shape.name + "[" + h + "]"
  }

  /** A braced rendering after a name, in square brackets. */
  lemma {:induction false} Bracketed(name: string, h: string)
    requires |h| >= 2 && h[0] == '{' && h[|h| - 1] == '}'
    ensures var s, n := name + "[" + h + "]", |name|;
      |s| >= n + 4 && s[..n] == name && s[n] == '[' && s[n + 1] == '{' && s[|s| - 2] == '}' && s[|s| - 1] == ']'
  {
    var s := name + "[" + h + "]";
    assert s[|name| + 1..|s| - 1] == h;
  }

  /** `Value#inspect` is `to_s`. */
  function Inspect(v: Value<int>): (s: string)
    requires WellFormed(v)
    ensures s == ToS(v)
  {
    ToS(v)
  }

  /** A record renders as its class name and, in square brackets, the hash
      pairing each attribute with its value in declared order, e.g.
      `Item[{:foo=>1, :bar=>2}]`. */
  lemma {:induction false} ToSDeclaredOrder(v: Value<int>)
    requires WellFormed(v) && Distinct(v.shape.attributes)
    ensures ToS(v) == v.shape.name + "[" + InspectHash(Zip(v.shape.attributes, v.values)) + "]"
  {
    AttributesDeclaredOrder(v);
  }

  /** The message of each `ArgumentError`. */
  function Message(e: Error): (s: string)
    ensures |s| > 0
    ensures s[0] == 'M' <==> e.Missing?
    ensures s[0] == 'U' <==> e.Unknown?
  {
    match e
    case NotSymbols => "attributes should be symbols!"
    case Missing(keys) => "Missing attribute(s): " + InspectKeys(keys)
    case Unknown(keys) => "Unknown attribute(s): " + InspectKeys(keys)
  }

  /** The three messages start differently, so a message tells which error
      was raised. */
  lemma {:induction false} MessageTellsKind(e1: Error, e2: Error)
    ensures Message(e1) == Message(e2) ==> e1.NotSymbols? == e2.NotSymbols? && e1.Missing? == e2.Missing?
  {
    if Message(e1) == Message(e2) {
      assert Message(e1)[0] == Message(e2)[0];
    }
  }

  /** The message about a single missing attribute names that attribute in
      a form that reads back as it. */
  lemma {:induction false} MissingOneNamesIt(k: Key)
    ensures var m := Message(Missing([k]));
      |m| >= 24 && m[..23] == "Missing attribute(s): [" && m[|m| - 1] == ']' && ParseKey(m[23..|m| - 1]) == k
  {
    var m := Message(Missing([k]));
    assert KeyStrings([k]) == [InspectKey(k)];
    assert m == "Missing attribute(s): [" + InspectKey(k) + "]";
    assert m[23..|m| - 1] == InspectKey(k);
    KeyRoundTrip(k);
  }
}

=== FILE: render.dfy ===
/** Ruby's `inspect` for the objects a record renders: integers, symbols,
    strings, arrays of keys and hashes from keys to integers
    (the Ruby 2 format, `{:foo=>1, :bar=>2}`). */
module Render {
  import opened Keys
  import opened Assoc

  predicate IsDigit(c: char) {
    '0' <= c <= '9'
  }

  function DigitChar(d: nat): (c: char)
    requires d < 10
    ensures IsDigit(c)
  {
    (48 + d) as char
  }

  function DigitValue(c: char): (d: nat)
    requires IsDigit(c)
    ensures d < 10
  {
    c as int - 48
  }

  /** Decimal digits of `n`, most significant first, with no leading zero. */
  function NatToString(n: nat): (s: string)
    ensures |s| >= 1
    ensures forall i :: 0 <= i < |s| ==> IsDigit(s[i])
    ensures s[0] == '0' <==> n == 0
    ensures |s| == 1 <==> n < 10
  {
    if n < 10 then [DigitChar(n)] else NatToString(n / 10) + [DigitChar(n % 10)]
  }

  /** `Integer#inspect`: a minus sign for negative numbers, then the digits. */
  function IntToString(n: int): (s: string)
    ensures |s| >= 1
    ensures s[0] == '-' <==> n < 0
  {
    if n < 0 then "-" + NatToString(-n) else NatToString(n)
  }

  /** Reads back a string of decimal digits. */
  function ParseNat(s: string): nat
    requires forall i :: 0 <= i < |s| ==> IsDigit(s[i])
  {
    if s == [] then 0 else ParseNat(s[..|s| - 1]) * 10 + DigitValue(s[|s| - 1])
  }

  /** Reads back an optionally signed decimal numeral. */
  function ParseInt(s: string): int
    requires |s| >= 1
    requires s[0] == '-' ==> |s| >= 2
    requires forall i :: (if s[0] == '-' then 1 else 0) <= i < |s| ==> IsDigit(s[i])
  {
    if s[0] == '-' then -(ParseNat(s[1..]) as int) else ParseNat(s)
  }

  lemma {:induction false} NatRoundTrip(n: nat)
    ensures ParseNat(NatToString(n)) == n
  {
    if n >= 10 {
      var s := NatToString(n);
      NatRoundTrip(n / 10);
      assert s[..|s| - 1] == NatToString(n / 10);
    }
  }

  /** The decimal rendering of an integer reads back as that integer. */
  lemma IntRoundTrip(n: int)
    ensures ParseInt(IntToString(n)) == n
  {
    if n < 0 {
      NatRoundTrip(-n);
      assert IntToString(n)[1..] == NatToString(-n);
    } else {
      NatRoundTrip(n);
    }
  }

  /** Distinct integers render differently. */
  lemma IntToStringInjective(a: int, b: int)
    ensures IntToString(a) == IntToString(b) ==> a == b
  {
    IntRoundTrip(a);
    IntRoundTrip(b);
  }

  /** `Symbol#inspect` (`:foo`), `String#inspect` (`"foo"`), `nil` and
      `false`, for names that need neither quoting nor escapes. */
  function InspectKey(k: Key): (s: string)
    ensures |s| >= 1
    ensures s[0] == ':' <==> k.Sym?
    ensures s[0] == '"' <==> k.Str?
  {
    match k
    case Sym(name) => ":" + name
    case Str(text) => "\"" + text + "\""
    case Nil => "nil"
    case False => "false"
  }

  /** Reads a key back from its rendering. */
  function ParseKey(s: string): Key
    requires |s| >= 1
  {
    if s[0] == ':' then Sym(s[1..])
    else if s[0] == '"' && |s| >= 2 then Str(s[1..|s| - 1])
    else if s == "nil" then Nil
    else False
  }

  /** A key's rendering identifies it: the string `"foo"` never renders like
      the symbol `:foo`. */
  lemma KeyRoundTrip(k: Key)
    ensures ParseKey(InspectKey(k)) == k
  {
    match k
    case Sym(name) =>
      assert InspectKey(k)[1..] == name;
    case Str(text) =>
      var s := InspectKey(k);
      assert s[1..|s| - 1] == text;
    case Nil =>
    case False =>
      assert InspectKey(k) != "nil";
  }

  /** The items separated by `", "`, as `Array#inspect` and `Hash#inspect` do. */
  function Join(parts: seq<string>): string
  {
    if parts == [] then ""
    else if |parts| == 1 then parts[0]
    else parts[0] + ", " + Join(parts[1..])
  }

  /** Joining works part by part, in order. */
  lemma {:induction false} JoinAppend(p1: seq<string>, p2: seq<string>)
    requires p1 != [] && p2 != []
    ensures Join(p1 + p2) == Join(p1) + ", " + Join(p2)
  {
    if |p1| == 1 {
      assert (p1 + p2)[1..] == p2;
    } else {
      assert (p1 + p2)[1..] == p1[1..] + p2;
      JoinAppend(p1[1..], p2);
    }
  }

  /** The rendering of each key, in order. */
  function KeyStrings(ks: seq<Key>): (r: seq<string>)
    ensures |r| == |ks|
  {
    if ks == [] then [] else [InspectKey(ks[0])] + KeyStrings(ks[1..])
  }

  /** `Array#inspect` of a key list, e.g. `[:foo, "bar"]`. */
  function InspectKeys(ks: seq<Key>): (s: string)
    ensures ks == [] ==> s == "[]"
    ensures |ks| == 1 ==> s == "[" + InspectKey(ks[0]) + "]"
  {
    "[" + Join(KeyStrings(ks)) + "]"
  }

  /** Each key is rendered at its own position. */
  lemma {:induction false} KeyStringsAt(ks: seq<Key>)
    ensures forall i :: 0 <= i < |ks| ==> KeyStrings(ks)[i] == InspectKey(ks[i])
  {
    if ks != [] {
      KeyStringsAt(ks[1..]);
      assert KeyStrings(ks) == [InspectKey(ks[0])] + KeyStrings(ks[1..]);
    }
  }

  /** The renderings of a concatenation are the renderings of each part. */
  lemma {:induction false} KeyStringsAppend(a: seq<Key>, b: seq<Key>)
    ensures KeyStrings(a + b) == KeyStrings(a) + KeyStrings(b)
  {
    if a == [] {
      assert a + b == b;
    } else {
      assert (a + b)[1..] == a[1..] + b;
      KeyStringsAppend(a[1..], b);
    }
  }

  /** `Array#inspect` lists the keys in order: the rendering of a
      concatenation is the two key lists joined inside one pair of brackets. */
  lemma {:induction false} InspectKeysAppend(a: seq<Key>, b: seq<Key>)
    requires a != [] && b != []
    ensures InspectKeys(a + b) == "[" + Join(KeyStrings(a)) + ", " + Join(KeyStrings(b)) + "]"
  {
    KeyStringsAppend(a, b);
    JoinAppend(KeyStrings(a), KeyStrings(b));
    var j1, j2 := Join(KeyStrings(a)), Join(KeyStrings(b));
    assert "[" + (j1 + ", " + j2) + "]" == "[" + j1 + ", " + j2 + "]";
  }

  /** One entry of `Hash#inspect`: `:foo=>1`. */
  function InspectEntry(k: Key, x: int): string {
    InspectKey(k) + "=>" + IntToString(x)
  }

  /** The entries of a hash, rendered in insertion order. */
  function Entries(m: Hash<int>): (r: seq<string>)
    ensures |r| == |m|
    ensures forall i :: 0 <= i < |m| ==> r[i] == InspectEntry(m[i].0, m[i].1)
  {
    if m == [] then [] else [InspectEntry(m[0].0, m[0].1)] + Entries(m[1..])
  }

  /** `Hash#inspect`, e.g. `{:foo=>1, :bar=>2}`. */
  function InspectHash(m: Hash<int>): (s: string)
    ensures |s| >= 2 && s[0] == '{' && s[|s| - 1] == '}'
    ensures m == [] ==> s == "{}"
    ensures |m| == 1 ==> s == "{" + InspectEntry(m[0].0, m[0].1) + "}"
  {
    "{" + Join(Entries(m)) + "}"
  }

  /** `Hash#inspect` lists the entries in insertion order: the rendering of a
      concatenation is the two renderings joined. */
  lemma {:induction false} InspectHashAppend(m1: Hash<int>, m2: Hash<int>)
    requires m1 != [] && m2 != []
    ensures InspectHash(m1 + m2) == "{" + Join(Entries(m1)) + ", " + Join(Entries(m2)) + "}"
  {
    EntriesAppend(m1, m2);
    JoinBraced(Entries(m1), Entries(m2));
  }

  /** `JoinAppend` inside the braces of a hash rendering. */
  lemma {:induction false} JoinBraced(p1: seq<string>, p2: seq<string>)
    requires p1 != [] && p2 != []
    ensures "{" + Join(p1 + p2) + "}" == "{" + Join(p1) + ", " + Join(p2) + "}"
  {
    JoinAppend(p1, p2);
    var j1, j2 := Join(p1), Join(p2);
    assert "{" + (j1 + ", " + j2) + "}" == "{" + j1 + ", " + j2 + "}";
  }

  /** The entries of a concatenation are the entries of each part. */
  lemma {:induction false} EntriesAppend(m1: Hash<int>, m2: Hash<int>)
    ensures Entries(m1 + m2) == Entries(m1) + Entries(m2)
  {
    if m1 == [] {
      assert m1 + m2 == m2;
    } else {
      assert (m1 + m2)[1..] == m1[1..] + m2;
      EntriesAppend(m1[1..], m2);
    }
  }
}

=== FILE: scenarios.dfy ===
/** The examples of the library's own test suite (spec/immutable_record_spec.rb),
    stated about the model with integer attribute values. */
module Scenarios {
  import opened Wrappers
  import opened Keys
  import opened Assoc
  import opened ImmutableRecord
  import opened Render

  /** `Item = ImmutableRecord.new(:foo, :bar)`, the first class defined. */
  const Item := Shape(0, "Item", [Sym("foo"), Sym("bar")])

  /** `SimilarItem = ImmutableRecord.new(:foo, :bar)`, defined right after. */
  const SimilarItem := Shape(1, "SimilarItem", [Sym("foo"), Sym("bar")])

  lemma DefineScenarios()
    ensures Define(Registry(0), "Item", [Sym("foo"), Sym("bar")]) == Ok(Defined(Registry(1), Item))
    ensures Define(Registry(1), "SimilarItem", [Sym("foo"), Sym("bar")]) == Ok(Defined(Registry(2), SimilarItem))
    ensures Define(Registry(2), "Bad", [Str("foo")]) == Err(NotSymbols)
    ensures Message(NotSymbols) == "attributes should be symbols!"
  {
    assert ![Str("foo")][0].Sym?;
  }

  /** `Item.new(foo: x, bar: y)` holds `x` and `y` in declared order. */
  lemma ItemNew(x: int, y: int)
    ensures New(Item, [(Sym("foo"), x), (Sym("bar"), y)]) == Ok(Value(Item, [x, y]))
  {
    var opts := [(Sym("foo"), x), (Sym("bar"), y)];
    assert KeysOf(opts) == [Sym("foo"), Sym("bar")];
    NewExact(Item, opts, [x, y]);
  }

  lemma ReaderScenarios()
    ensures Bracket(Item, [(Sym("foo"), 1), (Sym("bar"), 2)]) == Ok(Value(Item, [1, 2]))
    ensures Read(Value(Item, [1, 2]), Sym("foo")) == Some(1)
    ensures Read(Value(Item, [1, 2]), Sym("bar")) == Some(2)
  {
    ItemNew(1, 2);
  }

  lemma MissingFoo()
    ensures New(Item, [(Sym("bar"), 2)]) == Err(Missing([Sym("foo")]))
  {
    assert Minus([Sym("foo"), Sym("bar")], KeysOf([(Sym("bar"), 2)])) == [Sym("foo")];
  }

  lemma MissingBar()
    ensures New(Item, [(Sym("foo"), 2)]) == Err(Missing([Sym("bar")]))
  {
    assert Minus([Sym("foo"), Sym("bar")], KeysOf([(Sym("foo"), 2)])) == [Sym("bar")];
  }

  lemma MissingBoth()
    ensures New<int>(Item, []) == Err(Missing([Sym("foo"), Sym("bar")]))
  {
    assert Minus([Sym("foo"), Sym("bar")], KeysOf<int>([])) == [Sym("foo"), Sym("bar")];
  }

  lemma UnknownSymbol()
    ensures New(Item, [(Sym("foo"), 1), (Sym("bar"), 2), (Sym("baz"), 3)]) == Err(Unknown([Sym("baz")]))
  {
    var keys := KeysOf([(Sym("foo"), 1), (Sym("bar"), 2), (Sym("baz"), 3)]);
    assert keys == [Sym("foo"), Sym("bar"), Sym("baz")];
    assert Minus([Sym("foo"), Sym("bar")], keys) == [];
    assert Minus(keys, [Sym("foo"), Sym("bar")]) == [Sym("baz")];
  }

  /** A string key never matches the symbol attribute of the same name. */
  lemma UnknownString()
    ensures New(Item, [(Sym("foo"), 1), (Sym("bar"), 2), (Str("foo"), 1)]) == Err(Unknown([Str("foo")]))
  {
    var keys := KeysOf([(Sym("foo"), 1), (Sym("bar"), 2), (Str("foo"), 1)]);
    assert keys == [Sym("foo"), Sym("bar"), Str("foo")];
    assert Minus([Sym("foo"), Sym("bar")], keys) == [];
    assert Minus(keys, [Sym("foo"), Sym("bar")]) == [Str("foo")];
  }

  /** An undeclared `nil` option key: the code as written builds the record
      and drops the key, where the intended construction reports it. */
  lemma NilKeyDropped()
    ensures NewAsWritten(Item, [(Sym("foo"), 1), (Sym("bar"), 2), (Nil, 3)]) == Ok(Value(Item, [1, 2]))
    ensures New(Item, [(Sym("foo"), 1), (Sym("bar"), 2), (Nil, 3)]) == Err(Unknown([Nil]))
  {
    var opts := [(Sym("foo"), 1), (Sym("bar"), 2), (Nil, 3)];
    var keys := KeysOf(opts);
    assert keys == [Sym("foo"), Sym("bar"), Nil];
    assert Minus([Sym("foo"), Sym("bar")], keys) == [];
    assert Nil !in [Sym("foo"), Sym("bar")];
    assert Minus([Sym("foo"), Sym("bar"), Nil], [Sym("foo"), Sym("bar")]) == [Nil];
    ExtraNilIgnored(opts, 1, 2);
  }

  /** Options holding `foo`, `bar` and a `nil` key, as the code as written
      reads them. */
  lemma ExtraNilIgnored(opts: Hash<int>, x: int, y: int)
    requires KeysOf(opts) == [Sym("foo"), Sym("bar"), Nil]
    requires Lookup(opts, Sym("foo")) == Some(x) && Lookup(opts, Sym("bar")) == Some(y)
    ensures NewAsWritten(Item, opts) == Ok(Value(Item, [x, y]))
  {
    assert !Truthy(Nil);
    var r := NewAsWritten(Item, opts);
    assert r.Ok? && r.value.shape == Item && |r.value.values| == 2;
    assert r.value.values[0] == x && r.value.values[1] == y;
    PairOf(r.value.values, x, y);
  }

  lemma EqualityScenarios()
    ensures Equal(Value(Item, [1, 2]), Value(Item, [1, 2]))
    ensures !Equal(Value(Item, [1, 2]), Value(SimilarItem, [1, 2]))
  {
  }

  lemma RenderScenarios()
    ensures ToS(Value(Item, [1, 2])) == "Item[{:foo=>1, :bar=>2}]"
    ensures Inspect(Value(Item, [1, 2])) == "Item[{:foo=>1, :bar=>2}]"
  {
    ItemToS();
    ItemRenderingSpelled();
  }

  lemma ItemToS()
    ensures ToS(Value(Item, [1, 2])) == "Item" + "[" + "{:foo=>1, :bar=>2}" + "]"
  {
    ItemAttributes(1, 2);
    ItemHashRendering();
  }

  /** `__attributes__` of `Item.new(foo: x, bar: y)` lists `foo` then `bar`. */
  lemma ItemAttributes(x: int, y: int)
    ensures Attributes(Value(Item, [x, y])) == [(Sym("foo"), x), (Sym("bar"), y)]
  {
    AttributesDeclaredOrder(Value(Item, [x, y]));
    assert Zip([Sym("foo"), Sym("bar")], [x, y]) == [(Sym("foo"), x), (Sym("bar"), y)];
  }

  /** The rendering as the test suite spells it: a step of its own, because
      string equality over the whole rendering is costly in a larger context. */
  lemma ItemRenderingSpelled()
    ensures "Item" + "[" + "{:foo=>1, :bar=>2}" + "]" == "Item[{:foo=>1, :bar=>2}]"
  {
  }

  /** `Hash#inspect` of `{foo: 1, bar: 2}`. */
  lemma ItemHashRendering()
    ensures InspectHash([(Sym("foo"), 1), (Sym("bar"), 2)]) == "{:foo=>1, :bar=>2}"
  {
  }

  lemma CloneCopyScenario()
    ensures Clone(Value(Item, [1, 2]), [], None) == Ok(Value(Item, [1, 2]))
  {
    CloneCopies(Value(Item, [1, 2]));
  }

  lemma CloneOverrideScenario()
    ensures Clone(Value(Item, [1, 2]), [(Sym("foo"), 10)], None) == New(Item, [(Sym("foo"), 10), (Sym("bar"), 2)])
  {
    ItemNew(10, 2);
    CloneFoo(1, 2, 10);
  }

  /** `item.clone(foo: z)` replaces `foo` and keeps `bar`. */
  lemma CloneFoo(x: int, y: int, z: int)
    ensures Clone(Value(Item, [x, y]), [(Sym("foo"), z)], None) == Ok(Value(Item, [z, y]))
  {
    var v := Value(Item, [x, y]);
    var o := [(Sym("foo"), z)];
    assert KeysOf(o) == [Sym("foo")];
    CloneOverrides(v, o);
    var r := Clone(v, o, None);
    assert Lookup(o, Sym("foo")) == Some(z);
    assert Sym("bar") !in KeysOf(o);
    assert r.Ok? && r.value.shape == Item && |r.value.values| == 2;
    assert r.value.values[0] == z && r.value.values[1] == y;
    PairOf(r.value.values, z, y);
  }

  /** The block `{ |bar:, **| {bar: bar * 2} }`. */
  function DoubleBar(h: Hash<int>): (r: Hash<int>)
    ensures KeysOf(r) == [Sym("bar")]
  {
    var bar := match Lookup(h, Sym("bar")) case Some(b) => b case None => 0;
    [(Sym("bar"), bar * 2)]
  }

  /** `item.clone(foo: z) { |bar:, **| {bar: bar * 2} }` replaces `foo` by the
      override and `bar` by the block's result. */
  lemma CloneFooDoubleBar(x: int, y: int, z: int)
    ensures Clone(Value(Item, [x, y]), [(Sym("foo"), z)], Some(DoubleBar)) == Ok(Value(Item, [z, 2 * y]))
  {
    var o := [(Sym("foo"), z)];
    assert KeysOf(o) == [Sym("foo")];
    assert Lookup(o, Sym("foo")) == Some(z);
    DoubleBarArgument(x, y, z);
    CloneFooAndBar(Value(Item, [x, y]), o, DoubleBar, z, 2 * y);
  }

  /** A clone of an `Item` whose overrides set `foo` and whose block sets `bar`. */
  lemma CloneFooAndBar(v: Value<int>, o: Hash<int>, f: Hash<int> -> Hash<int>, a: int, b: int)
    requires v.shape == Item && WellFormed(v)
    requires KeysOf(o) == [Sym("foo")] && Lookup(o, Sym("foo")) == Some(a)
    requires f(Merge(Attributes(v), o)) == [(Sym("bar"), b)]
    ensures Clone(v, o, Some(f)) == Ok(Value(Item, [a, b]))
  {
    var given := [(Sym("bar"), b)];
    assert KeysOf(given) == [Sym("bar")];
    assert Lookup(given, Sym("bar")) == Some(b);
    CloneWithBlock(v, o, f);
    var r := Clone(v, o, Some(f));
    assert r.Ok? && r.value.shape == Item && |r.value.values| == 2;
    assert r.value.values[0] == a && r.value.values[1] == b;
    PairOf(r.value.values, a, b);
  }

  /** The block sees `bar` unchanged by the `foo` override. */
  lemma DoubleBarArgument(x: int, y: int, z: int)
    ensures DoubleBar(Merge(Attributes(Value(Item, [x, y])), [(Sym("foo"), z)])) == [(Sym("bar"), 2 * y)]
  {
    BarKept(x, y, z);
    DoubleBarOf(Merge(Attributes(Value(Item, [x, y])), [(Sym("foo"), z)]), y);
  }

  lemma DoubleBarOf(h: Hash<int>, y: int)
    requires Lookup(h, Sym("bar")) == Some(y)
    ensures DoubleBar(h) == [(Sym("bar"), 2 * y)]
  {
  }

  /** Overriding `foo` leaves `bar` as it was. */
  lemma BarKept(x: int, y: int, z: int)
    ensures Lookup(Merge(Attributes(Value(Item, [x, y])), [(Sym("foo"), z)]), Sym("bar")) == Some(y)
  {
    var v := Value(Item, [x, y]);
    var o := [(Sym("foo"), z)];
    assert KeysOf(o) == [Sym("foo")];
    BlockArgument(v, o);
    assert v.shape.attributes[1] == Sym("bar");
  }

  lemma CloneBlockScenario()
    ensures Clone(Value(Item, [1, 2]), [(Sym("foo"), 10)], Some(DoubleBar)) == New(Item, [(Sym("foo"), 10), (Sym("bar"), 4)])
  {
    ItemNew(10, 4);
    CloneFooDoubleBar(1, 2, 10);
  }

  lemma PairOf(s: seq<int>, a: int, b: int)
    requires |s| == 2 && s[0] == a && s[1] == b
    ensures s == [a, b]
  {
  }

  /** The messages of the `ArgumentError`s the test suite expects. */
  lemma MissingFooMessage()
    ensures Message(Missing([Sym("foo")])) == "Missing attribute(s): [:foo]"
  {
  }

  lemma MissingBarMessage()
    ensures Message(Missing([Sym("bar")])) == "Missing attribute(s): [:bar]"
  {
  }

  lemma MissingBothMessage()
    ensures Message(Missing([Sym("foo"), Sym("bar")])) == "Missing attribute(s): [:foo, :bar]"
  {
  }

  lemma UnknownBazMessage()
    ensures Message(Unknown([Sym("baz")])) == "Unknown attribute(s): [:baz]"
  {
  }

  lemma UnknownStringMessage()
    ensures Message(Unknown([Str("foo")])) == "Unknown attribute(s): [\"foo\"]"
  {
  }
}

=== FILE: wrappers.dfy ===
/** Failure-carrying results shared by the model. */
module Wrappers {

  /** A value that may be absent; `None` plays the part of Ruby's `nil`
      or of a lookup that finds nothing. */
  datatype Option<+T> = None | Some(value: T)

  /** The outcome of an operation that either returns a value or raises. */
  datatype Result<+T, +E> = Ok(value: T) | Err(error: E)
}
